=== FILE: README.md ===
# Bulk ticket creator — a Dafny model of its row-to-ticket logic

The program reads a spreadsheet with one sheet per ticket type. It turns each
data row into a ticket-creation request for a Web Help Desk server and
submits the batch once the operator confirms. This project models the
deterministic part of that flow as pure Dafny functions:

- **Row assembly and the required-field check** (`Rows`). A row is the sheet
  name under `Ticket Type`, overwritten by the header/value pairs. A required
  column absent from the row ends the run. A row with a blank required value
  is skipped.
- **Lookup classification** (`Lookups`). The number of search results decides
  the outcome. With none, a client is "not found" and a location ends the run.
  With one, that record is the answer. With several, the operator's id must
  be one of the candidates. The search, the fetch by id and the operator's
  answer are inputs (a `Directory` of pure functions).
- **Payload mapping** (`Mapper`, `MapperProperties`). The payload holds the
  custom fields: required columns in configured order, then optional columns
  with a value. It also holds the problem type, the client reporter found
  through the client email column, the location and the detail text.
- **Batch and run** (`Batch`, `Run`). Payloads are gathered in ticket-type
  order, then row order. The file-type gate accepts `.xls`, `.xlsx` and
  `.xlsm` only. The confirmation answer is right-stripped, defaults to `y`
  and is compared case-insensitively with `y` and `yes`.
- **Shipped configuration** (`Settings`): the ticket defaults, the
  definition ids and the example ticket type.

Every fatal condition (`SystemExit` in the program) is a `Fatal` value in a
`Result`. The payload is a fresh immutable record.

The workbook is read as xlrd reads it with its default settings (ragged
rows off): every row, the header included, is padded with empty cells to
the sheet's width. So a data row cut short reads its missing cells as blank:
when a missing cell is under a required column, the row is skipped. Only a
required column absent from the header ends the run with `MissingColumn`. The padding follows xlrd's documented default, since
xlrd itself is not part of this model.

A ticket type whose sheet is absent or has no header row ends the run: the
error is caught and turned into a `SystemExit` at lines 288-292. The
sheet is not skipped.

## Model

| member | source | states |
|---|---|---|
| Rows.BuildRowContents | create-tickets.py:256-260 | A built row holds `Ticket Type` plus the header keys up to the shorter of header and values, and nothing else. Each key maps to the value at its last position. `Ticket Type` keeps the sheet name unless a column of that name overwrites it. Columns past the shorter length are ignored. |
| Rows.CheckRequiredMeaning | create-tickets.py:262-272 | The check fails exactly when a required column is absent from the row, and then names the first absent one. Otherwise it yields exactly the blank required fields, in configured order. |
| Rows.BlankRequiredIsSkipped | create-tickets.py:264-277 | When every required column is present and one of them is blank, the check succeeds and lists that field as missing. |
| Batch.DroppedRowContributesNothing | create-tickets.py:274-284 | A row that yields neither a payload nor a fatal stop can be removed from the sheet without changing the sheet's tickets or its fatal outcome. |
| Batch.ClientNotFoundContributesNothing | create-tickets.py:281-284 | A complete row whose client email finds no client adds no ticket: removing it changes nothing. |
| Batch.ReadSheet | create-tickets.py:240-256 | A sheet as read keeps its number of rows, and each row is the original padded with empty cells to the sheet's width. |
| Batch.ReadRowHasHeaderColumns | create-tickets.py:256-260 | Every data row, as read, holds every column of the header row. |
| Batch.ShortRowIsSkipped | create-tickets.py:256-277 | With every required column in the header, a data row whose cell under a required column was left off the end is skipped. |
| Batch.ShortRowExample | create-tickets.py:256-277 | Header `A, B` (both required) over a row holding only `x` gives no tickets and no fatal condition. |
| Batch.HeaderColumnsAreNeverMissing | create-tickets.py:262-272 | With every required column in the header, no data row fails the required check for a missing column. |
| Batch.SkippedRowContributesNothing | create-tickets.py:274-277 | A row with a blank required field can be removed from the sheet without changing the sheet's tickets or its fatal outcome. |
| Batch.MissingColumnIsFatal | create-tickets.py:266-272 | A row lacking a required column ends the run with `MissingColumn`. The column named is that one or an earlier absent one. |
| Batch.AtMostOneTicketPerRow | create-tickets.py:250-286 | A sheet yields at most one payload per data row. |
| Batch.RowsTicketsAppend | create-tickets.py:250-286 | Rows are processed in order: the result for `a + b` is `a`'s payloads followed by `b`'s, or the first fatal condition. |
| Batch.SheetTickets | create-tickets.py:236-286 | A ticket type whose sheet is absent or empty ends the run with `SheetUnreadable`. Otherwise its first row, as read, is the header and the later rows, as read, are the data rows. A header-only sheet yields no tickets, and a sheet yields at most one ticket per data row. |
| Batch.RowsTicketsMeaning | create-tickets.py:250-286 | A sheet is fatal exactly when one of its data rows is, and then ends with the condition of the first fatal row. When no row is fatal, the sheet yields the payload of every accepted row, in row order. |
| Batch.FatalRowEndsSheet | create-tickets.py:270-272 | A fatal row ends the sheet with its own condition once the rows before it went through, whatever rows follow. |
| Batch.ProcessRow | create-tickets.py:262-284 | A row lacking a required column is fatal. A row with a blank required field gives nothing. A complete row gives its built payload. A fatal client or location lookup makes the row fatal with that condition. Any other abandoned row gives nothing. |
| Batch.FatalLookupIsFatal | create-tickets.py:112-171 | A complete row whose client or location lookup is fatal is itself fatal, with that lookup's condition. |
| Batch.AcceptedRowAddsItsPayload | create-tickets.py:279-284 | A row with no blank required field whose payload is built adds exactly that payload, after the earlier rows' payloads and before the later rows' payloads. |
| Batch.CollectBatchAppend | create-tickets.py:354-359 | The batch is built in ticket-type order: for `a + b` it is `a`'s payloads followed by `b`'s, or the first fatal condition. |
| Batch.CollectOne | create-tickets.py:356-359 | The batch for a single ticket type is exactly that sheet's payloads. |
| Lookups.ClassifyClients | create-tickets.py:146-169 | No results gives "not found". One result is returned unchanged. With several, a record is found exactly when the chosen id is among the candidates' ids and the fetch succeeds, and that record is the fetched one. An id outside the candidates ends the run with `InvalidClientId`. |
| Lookups.ClassifyLocations | create-tickets.py:112-134 | No results ends the run with `LocationNotFound`. One result is returned unchanged. With several, a record is found exactly when the chosen id is a candidate id and the fetch succeeds. An id outside the candidates ends the run with `InvalidLocationId`. |
| Lookups.LookupLocation | create-tickets.py:96-136 | A location name in the known-locations table is fetched by its configured id, with no search. Otherwise a failed search ends the run with `LocationUnavailable`, an empty one with `LocationNotFound`, and any other result is classified by `ClassifyLocations`. |
| Lookups.LookupClient | create-tickets.py:138-171 | A failed client search ends the run with `ClientUnavailable`. The client is "not found" exactly when the search succeeds with no results. A successful search is classified by `ClassifyClients`. |
| Lookups.Ids | create-tickets.py:121-124 | The candidate ids are the results' ids, in result order. |
| Lookups.NoPromptWithoutAmbiguity | create-tickets.py:114-117 | With at most one search result, neither the operator's answer nor the fetch function affects either lookup's outcome. |
| Lookups.FoundIsCandidate | create-tickets.py:150-167 | A found client is either the single result or the record fetched for one of the candidates' ids. |
| Lookups.ClientAndLocationAgree | create-tickets.py:148-169 | On the same results, the client and location lookups agree on what they find. They differ only when there are no results: the client lookup says "not found" and the location lookup is fatal. |
| Mapper.Detail | create-tickets.py:225-228 | The detail starts with `[BULK TICKET] `. It exists exactly when the row has `Request Detail`, or has both name columns. With `Request Detail`, the text after the marker is that value. Without it, the text after the marker is `<ticket type> for <First Name> <Last Name>`. |
| Mapper.Construct | create-tickets.py:179-182 | A built payload has problem type `(ticket type id, "RequestType")` and the run's flags. Its location is the one the location lookup returns, and its detail is the row's detail text. |
| MapperProperties.RequiredLoopMeaning | create-tickets.py:186-211 | The required loop appends one custom field per non-email column whose id resolves, in configured order. A per-type id that lacks this ticket type is skipped. The email column sets the reporter to the looked-up client. A client that is not found drops the row, and a fatal lookup ends the run. |
| MapperProperties.OptionalLoopMeaning | create-tickets.py:213-221 | The optional loop appends one custom field per optional column with a non-blank value whose id resolves, in configured order and after the required ones. |
| MapperProperties.ConstructMeaning | create-tickets.py:186-228 | For a well-formed type and a covering row: a client not found gives `ClientMissing`, and a fatal client lookup stops the run. Otherwise a payload exists exactly when the location resolves. Its custom fields are the required entries followed by the optional entries. Its reporter is the looked-up client, or the default client when the type has no email column. |
| MapperProperties.CustomFieldCount | create-tickets.py:186-221 | With fixed ids, the payload holds (required columns other than the client email) + (optional columns with a value) custom fields. |
| MapperProperties.OptionalPerTypeIdSentWhole | create-tickets.py:213-221 | As written, an optional column with a per-type id sends the whole table as its definition id. The corrected loop sends the id for this ticket type. |
| MapperProperties.OptionalIdsResolved | create-tickets.py:213-221 | In the corrected optional loop, every entry carries the id its column resolves to for the ticket type, together with that column's non-blank value. |
| MapperProperties.DetailExamples | create-tickets.py:225-228 | `Request Detail = "VPN issue"` gives `[BULK TICKET] VPN issue`. A row without it, with Jane/Doe, gives `[BULK TICKET] Example Ticket Type for Jane Doe`. |
| Settings.ShippedConfigurationWellFormed | create-tickets.py:52-74 | Every column named by the shipped ticket type has a definition id, and every shipped id is a fixed one. |
| Settings.ShippedFlagsAreTicketDefaults | create-tickets.py:31-38 | The shipped defaults email the client and the technician, copy nobody, do not assign the creating technician, and send notification emails. |
| Settings.RunDefaults | create-tickets.py:342-347 | The run's defaults keep the shipped flags and take the default client as reporter. Copying is switched on, with that address, exactly when the cover sheet gives a cc address. |
| Settings.ShippedPayloadFlags | create-tickets.py:31-38 | With the shipped defaults, every ticket emails the client and the technician and sends notifications, blind-copies nobody, and copies someone exactly when a cc address was given. |
| Settings.ExampleTypeHasFiveCustomFields | create-tickets.py:68-74 | Five of the example type's six required columns become custom fields. The client email column is the one that does not. |
| Run.ConfirmedMeaning | create-tickets.py:361-363 | The run is confirmed exactly when the right-stripped answer is empty, or is `y` or `yes` in any mix of cases. |
| Run.ConfirmedIgnoresTrailingSpace | create-tickets.py:361 | Appending a white-space character never changes the confirmation. |
| Run.ConfirmationAccepted | create-tickets.py:361-363 | `""`, `"Y"` and `"Yes \n"` confirm. |
| Run.ConfirmationRejected | create-tickets.py:361-363 | `" y"`, `"no"` and `"yess"` do not confirm: leading white space is kept. |
| Run.RunTickets | create-tickets.py:317-369 | A path without a spreadsheet extension ends the run with `UnsupportedFileType`. The run proceeds exactly when the path is supported and the batch is collected without fatal conditions; with a supported path, a fatal batch's condition ends the run. It is cancelled exactly when the answer does not confirm. Otherwise it carries the whole batch, simulated exactly when the test-run switch is on. |
| Run.SubmissionNeedsEverything | create-tickets.py:319-367 | Tickets are submitted only with an `.xls`/`.xlsx`/`.xlsm` extension, a confirmed answer, test mode off, and a batch collected without fatal conditions. |
| Run.TemplatePathAccepted | create-tickets.py:317-319 | `Bulk Ticket Creation Template.xlsx` passes the file-type gate. |
| Run.DottedDirectoryPathAccepted | create-tickets.py:317-319 | `tickets/old.v2.xls` passes: the extension is taken after the last dot. |
| Run.OtherExtensionRejected | create-tickets.py:317-319 | `tickets.csv` is rejected. |
| Run.UpperCaseExtensionRejected | create-tickets.py:317-319 | `tickets.XLSX` is rejected, because the comparison is case-sensitive. |
| Run.BareExtensionRejected | create-tickets.py:317-319 | `.xlsx` is rejected: a name that is only a leading-dot suffix has no extension. |
| Text.RStrip | create-tickets.py:361 | `rstrip()` returns the prefix of the input that does not end in white space, and everything it drops is white space. |
| Text.Lower | create-tickets.py:363 | `lower()` keeps the length and lowers each ASCII capital. |
| Text.LastIndex | create-tickets.py:317 | `rfind` returns an index holding the character with no later occurrence, or -1 when the character does not occur. |
| Text.SplitExtShape | create-tickets.py:317 | A non-empty extension is a dot followed by neither dots nor slashes. The last path component of the root contains a character other than a dot. |
| Text.SplitExtOfComposed | create-tickets.py:317 | A stem whose last component has a non-dot character, then a dot, then a suffix without dots or slashes, splits at that dot. |

## Left out

- HTTP requests (`query_api`, the POST in `create_tickets`) and the per-ticket report, lines 76-94. They are network I/O. Searches and fetches are `Directory` functions, returning None when the request or its JSON decoding fails; submission is the `Submitted` action.
- Qualifier and URL building with `quote` (105-107, 140-142), and JSON encoding and decoding. These are foreign library calls.
- Workbook access through xlrd. Sheets are sequences of rows of strings, padded as `Batch.ReadSheet` describes; cell types other than text are not modelled.
- The fixed-cell metadata reads, the prompts for missing values and the default-client lookup (321-341). These run on file I/O and prompts. Their results are the arguments of `Settings.RunDefaults`, which models the cc handling at 342-347.
- The keyring credential cache and every `input()` prompt. The answers are inputs: `Directory.choose` for the id prompt, `answer` for the confirmation.
- Coloured console output and all printing.
- The exception path of `construct_data` (229-232). In the source, a missing key returns the partly built dict, and `get_rows` appends it. Here it is an `Aborted` outcome, and the row adds no ticket.
- The aliasing of the global `ticket_defaults` (176, 284). In the source, a ticket type without a client email column can inherit the previous row's client. Here the reporter is then the run's default client.
- `Lookups.Directory`: the location is looked up again for every row. The model is deterministic, so an ambiguous location gets the same answer each time; in the source the operator could answer differently per row.
- Rows.Blank: cell values are strings and only `""` is blank. A numeric cell holding 0, which Python also treats as falsy, is not modelled.
- Text.Lower: only ASCII capitals are lowered. Other Unicode case mappings never produce `y`, `e` or `s`, so the confirmation is unaffected.
- Text.SplitExt: the POSIX form of `os.path.splitext`, with `/` as the only separator.
- MapperProperties.OptionalLoopMeaning: like `MapperProperties.ConstructMeaning`, `Mapper.Construct` and the batch built from it, it describes the corrected optional loop, which resolves a per-type definition id for the row's ticket type. Lines 213-221 as written send the whole per-type table; that behaviour is `Mapper.OptionalLoopAsWritten` (see "## Findings").
- MapperProperties.ConstructMeaning: stated only for a well-formed configuration and a row holding every configured column. Other rows end in `Aborted`, and only `Mapper.Construct`'s own contract covers them.
- The `SystemExit` messages with traceback line numbers (288-292, 372-376). They are `Fatal` values.

## Findings

| source | as written | input that shows it | evidently intended | confidence | as-written member | corrected member |
|---|---|---|---|---|---|---|
| create-tickets.py:213-221 | An optional column's definition id is sent as configured, so a per-ticket-type table goes out whole as `definitionId`. | `definition_ids = {"Position": {"Example Ticket Type": 4}}`, `Position` optional, row value `Manager`: the entry is `{definitionId: {"Example Ticket Type": 4}, restValue: "Manager"}`. | Resolve the id for the ticket type, as required columns do (199-206) and as the configuration comment at line 51 describes for any column. | medium, not executed | MapperProperties.OptionalPerTypeIdSentWhole | MapperProperties.OptionalIdsResolved |

=== FILE: batch.dfy ===
/** `get_rows` and the accumulation loop of the main program: every data
    row of every ticket-type sheet is checked and mapped, and the payloads
    are gathered in ticket-type order, then row order. */
module Batch {
  import opened Outcomes
  import opened Rows
  import opened Lookups
  import opened Mapper
  import opened Seqs

  /** A sheet's rows of cell values; the first row is the header. */
  type Sheet = seq<seq<string>>

  /** The ticket file: its sheets by name. */
  type Workbook = map<string, Sheet>

  /** Everything a run fixes before reading rows. */
  datatype Context = Context(defs: DefinitionIds, dir: Directory, defaults: Defaults)

  /** One data row: a payload, nothing (a blank required field, a client
      not found, or a dropped row), or a fatal stop. */
  function ProcessRow(ctx: Context, tt: TicketType, header: seq<string>, values: seq<string>)
    : (r: Result<Option<Payload>, Fatal>)
    ensures var check := CheckRequired(BuildRow(tt.name, header, values), tt.required);
      var built := Construct(BuildRow(tt.name, header, values), tt, ctx.defs, ctx.dir, ctx.defaults);
      && (check.Failure? ==> r == Failure(check.error))
      && (check.Success? && check.value != [] ==> r == Success(None))
      && (check == Success([]) && built.Success? ==> r == Success(Some(built.value)))
      && (check == Success([]) && built.Failure? && built.error.Stopped? ==> r == Failure(built.error.error))
      && (check == Success([]) && built.Failure? && !built.error.Stopped? ==> r == Success(None))
  {
    var row := BuildRow(tt.name, header, values);
    match CheckRequired(row, tt.required)
    case Failure(e) => Failure(e)
    case Success(missing) =>
      if missing != [] then Success(None)
      else
        match Construct(row, tt, ctx.defs, ctx.dir, ctx.defaults)
        case Success(p) => Success(Some(p))
        case Failure(Stopped(e)) => Failure(e)
        case Failure(_) => Success(None)
  }

  /** The payloads of a sheet's data rows, in row order; the first fatal row ends it. */
  function RowsTickets(ctx: Context, tt: TicketType, header: seq<string>, rows: seq<seq<string>>)
    : Result<seq<Payload>, Fatal>
    decreases |rows|
  {
    if rows == [] then Success([])
    else
      match ProcessRow(ctx, tt, header, rows[0])
      case Failure(e) => Failure(e)
      case Success(t) =>
        match RowsTickets(ctx, tt, header, rows[1..])
        case Failure(e) => Failure(e)
        case Success(rest) =>
          Success((match t case Some(p) => [p] case None => []) + rest)
  }

  /** The number of columns xlrd reports for a sheet: its longest row. */
  function Width(sheet: Sheet): (w: nat)
    ensures forall i :: 0 <= i < |sheet| ==> |sheet[i]| <= w
    ensures sheet == [] ==> w == 0
    ensures sheet != [] ==> exists i :: 0 <= i < |sheet| && |sheet[i]| == w
  {
    if sheet == [] then 0
    else
      var rest := Width(sheet[1..]);
      assert forall i :: 1 <= i < |sheet| ==> sheet[i] == sheet[1..][i - 1];
      if |sheet[0]| >= rest then |sheet[0]| else rest
  }

  /** One row as xlrd returns it: padded with empty cells to width `w`. */
  function Pad(cells: seq<string>, w: nat): (p: seq<string>)
    requires |cells| <= w
    ensures |p| == w
    ensures p[..|cells|] == cells
    ensures forall j :: |cells| <= j < w ==> p[j] == ""
  {
    cells + seq(w - |cells|, _ => "")
  }

  /** A sheet as the program reads it (xlrd with ragged rows off): every
      row, the header included, padded with empty cells to the sheet's
      width. */
  function ReadSheet(sheet: Sheet): (cells: Sheet)
    ensures |cells| == |sheet|
    ensures forall i :: 0 <= i < |sheet| ==> |cells[i]| == Width(sheet) && cells[i] == Pad(sheet[i], Width(sheet))
  {
    var w := Width(sheet);
    seq(|sheet|, i requires 0 <= i < |sheet| => Pad(sheet[i], w))
  }

  /** `get_rows`: a ticket type's sheet must exist and have a header row;
      every later row is a data row. */
  function SheetTickets(ctx: Context, book: Workbook, tt: TicketType): (r: Result<seq<Payload>, Fatal>)
    ensures tt.name !in book || book[tt.name] == [] ==> r == Failure(SheetUnreadable(tt.name))
    ensures tt.name in book && |book[tt.name]| == 1 ==> r == Success([])
    ensures r.Success? ==> |r.value| <= |book[tt.name]| - 1
    ensures tt.name in book && book[tt.name] != [] ==>
      var cells := ReadSheet(book[tt.name]);
      r == RowsTickets(ctx, tt, cells[0], cells[1..])
  {
    if tt.name !in book || book[tt.name] == [] then Failure(SheetUnreadable(tt.name))
    else
      var cells := ReadSheet(book[tt.name]);
      AtMostOneTicketPerRow(ctx, tt, cells[0], cells[1..]);
      RowsTickets(ctx, tt, cells[0], cells[1..])
  }

  /** All the payloads of the run, in ticket-type order; the first fatal sheet ends it. */
  function CollectBatch(ctx: Context, book: Workbook, types: seq<TicketType>): Result<seq<Payload>, Fatal>
    decreases |types|
  {
    if types == [] then Success([])
    else
      match SheetTickets(ctx, book, types[0])
      case Failure(e) => Failure(e)
      case Success(tickets) =>
        match CollectBatch(ctx, book, types[1..])
        case Failure(e) => Failure(e)
        case Success(rest) => Success(tickets + rest)
  }

  /** Two stages run one after the other: the first failure wins,
      otherwise the payloads are concatenated in order. */
  function Then(first: Result<seq<Payload>, Fatal>, second: Result<seq<Payload>, Fatal>)
    : Result<seq<Payload>, Fatal>
  {
    match first
    case Failure(e) => Failure(e)
    case Success(xs) =>
      match second
      case Failure(e) => Failure(e)
      case Success(ys) => Success(xs + ys)
  }

  /** Rows are processed strictly in order: the rows of `a` then those of `b`. */
  lemma {:induction false} RowsTicketsAppend(ctx: Context, tt: TicketType, header: seq<string>,
                                             a: seq<seq<string>>, b: seq<seq<string>>)
    ensures RowsTickets(ctx, tt, header, a + b)
         == Then(RowsTickets(ctx, tt, header, a), RowsTickets(ctx, tt, header, b))
    decreases |a|
  {
    if a == [] {
      assert a + b == b;
      var rb := RowsTickets(ctx, tt, header, b);
      if rb.Success? {
        assert [] + rb.value == rb.value;
      }
    } else {
      assert (a + b)[0] == a[0];
      assert (a + b)[1..] == a[1..] + b;
      RowsTicketsAppend(ctx, tt, header, a[1..], b);
      var ra := RowsTickets(ctx, tt, header, a[1..]);
      var rb := RowsTickets(ctx, tt, header, b);
      var t := ProcessRow(ctx, tt, header, a[0]);
      if t.Success? && ra.Success? && rb.Success? {
        var h := match t.value case Some(p) => [p] case None => [];
        assert (h + ra.value) + rb.value == h + (ra.value + rb.value);
      }
    }
  }

  /** The payload a data row adds, if any, when it is not fatal. */
  function RowTicket(ctx: Context, tt: TicketType, header: seq<string>, values: seq<string>): Option<Payload> {
    var t := ProcessRow(ctx, tt, header, values);
    if t.Success? then t.value else None
  }

  /** A sheet's rows add, in row order, the payload of every accepted row
      when no row is fatal; otherwise the first fatal row's condition ends
      the run. */
  lemma {:induction false} RowsTicketsMeaning(ctx: Context, tt: TicketType, header: seq<string>,
                                              rows: seq<seq<string>>)
    ensures (forall i :: 0 <= i < |rows| ==> ProcessRow(ctx, tt, header, rows[i]).Success?) ==>
      RowsTickets(ctx, tt, header, rows) == Success(FilterMap(rows, v => RowTicket(ctx, tt, header, v)))
    ensures (exists i :: 0 <= i < |rows| && ProcessRow(ctx, tt, header, rows[i]).Failure?) ==>
      RowsTickets(ctx, tt, header, rows).Failure?
    ensures RowsTickets(ctx, tt, header, rows).Failure? ==>
      exists i :: 0 <= i < |rows|
        && (forall k :: 0 <= k < i ==> ProcessRow(ctx, tt, header, rows[k]).Success?)
        && ProcessRow(ctx, tt, header, rows[i]) == Failure(RowsTickets(ctx, tt, header, rows).error)
    decreases |rows|
  {
    if rows != [] {
      RowsTicketsMeaning(ctx, tt, header, rows[1..]);
      var r := RowsTickets(ctx, tt, header, rows);
      if r.Failure? && ProcessRow(ctx, tt, header, rows[0]).Success? {
        var i :| 0 <= i < |rows[1..]|
          && (forall k :: 0 <= k < i ==> ProcessRow(ctx, tt, header, rows[1..][k]).Success?)
          && ProcessRow(ctx, tt, header, rows[1..][i]) == Failure(RowsTickets(ctx, tt, header, rows[1..]).error);
        assert forall k :: 0 <= k < i + 1 ==> ProcessRow(ctx, tt, header, rows[k]).Success? by {
          forall k | 0 < k < i + 1
            ensures ProcessRow(ctx, tt, header, rows[k]).Success?
          {
            assert rows[k] == rows[1..][k - 1];
          }
        }
        assert rows[i + 1] == rows[1..][i];
      }
      if forall i :: 0 <= i < |rows| ==> ProcessRow(ctx, tt, header, rows[i]).Success? {
        assert forall i :: 0 <= i < |rows[1..]| ==> rows[1..][i] == rows[i + 1];
      }
      if i :| 0 < i < |rows| && ProcessRow(ctx, tt, header, rows[i]).Failure? {
        assert rows[1..][i - 1] == rows[i];
      }
    }
  }

  /** A fatal row ends the sheet with its own condition once the rows
      before it went through, whatever rows follow. */
  lemma FatalRowEndsSheet(ctx: Context, tt: TicketType, header: seq<string>,
                          before: seq<seq<string>>, row: seq<string>, after: seq<seq<string>>)
    requires ProcessRow(ctx, tt, header, row).Failure?
    requires RowsTickets(ctx, tt, header, before).Success?
    ensures RowsTickets(ctx, tt, header, before + [row] + after)
         == Failure(ProcessRow(ctx, tt, header, row).error)
  {
    assert RowsTickets(ctx, tt, header, [row] + after) == Failure(ProcessRow(ctx, tt, header, row).error) by {
      assert ([row] + after)[0] == row;
    }
    assert before + [row] + after == before + ([row] + after);
    RowsTicketsAppend(ctx, tt, header, before, [row] + after);
  }

  /** A complete row whose client or location lookup is fatal (an id
      outside the candidates, a failed request, a location not found) is
      itself fatal, with that lookup's condition. */
  lemma FatalLookupIsFatal(ctx: Context, tt: TicketType, header: seq<string>, values: seq<string>, e: Fatal)
    requires CheckRequired(BuildRow(tt.name, header, values), tt.required) == Success([])
    requires Construct(BuildRow(tt.name, header, values), tt, ctx.defs, ctx.dir, ctx.defaults) == Failure(Stopped(e))
    ensures ProcessRow(ctx, tt, header, values) == Failure(e)
  {
  }

  /** An accepted row adds exactly its payload, between the payloads of
      the rows before it and those of the rows after it. */
  lemma AcceptedRowAddsItsPayload(ctx: Context, tt: TicketType, header: seq<string>,
                                  before: seq<seq<string>>, row: seq<string>, after: seq<seq<string>>,
                                  p: Payload)
    requires CheckRequired(BuildRow(tt.name, header, row), tt.required) == Success([])
    requires Construct(BuildRow(tt.name, header, row), tt, ctx.defs, ctx.dir, ctx.defaults) == Success(p)
    ensures RowsTickets(ctx, tt, header, before + [row] + after)
         == Then(Then(RowsTickets(ctx, tt, header, before), Success([p])), RowsTickets(ctx, tt, header, after))
  {
    assert ProcessRow(ctx, tt, header, row) == Success(Some(p));
    assert RowsTickets(ctx, tt, header, [row]) == Success([p]) by {
      assert [row][1..] == [];
      assert [p] + [] == [p];
    }
    assert before + [row] + after == (before + [row]) + after;
    RowsTicketsAppend(ctx, tt, header, before + [row], after);
    RowsTicketsAppend(ctx, tt, header, before, [row]);
  }

  /** A row that yields neither a payload nor a fatal stop can be removed
      from the sheet without changing its outcome. */
  lemma DroppedRowContributesNothing(ctx: Context, tt: TicketType, header: seq<string>,
                                     before: seq<seq<string>>, row: seq<string>, after: seq<seq<string>>)
    requires ProcessRow(ctx, tt, header, row) == Success(None)
    ensures RowsTickets(ctx, tt, header, before + [row] + after)
         == RowsTickets(ctx, tt, header, before + after)
  {
    assert RowsTickets(ctx, tt, header, [row] + after) == RowsTickets(ctx, tt, header, after) by {
      assert ([row] + after)[0] == row;
      assert ([row] + after)[1..] == after;
      var r := RowsTickets(ctx, tt, header, after);
      if r.Success? {
        assert [] + r.value == r.value;
      }
    }
    assert before + [row] + after == before + ([row] + after);
    RowsTicketsAppend(ctx, tt, header, before, [row] + after);
    RowsTicketsAppend(ctx, tt, header, before, after);
  }

  /** A row with a blank required field is skipped: removing it from the
      sheet changes nothing, whatever rows surround it. */
  lemma SkippedRowContributesNothing(ctx: Context, tt: TicketType, header: seq<string>,
                                     before: seq<seq<string>>, row: seq<string>, after: seq<seq<string>>)
    requires CheckRequired(BuildRow(tt.name, header, row), tt.required).Success?
    requires CheckRequired(BuildRow(tt.name, header, row), tt.required).value != []
    ensures RowsTickets(ctx, tt, header, before + [row] + after)
         == RowsTickets(ctx, tt, header, before + after)
  {
    DroppedRowContributesNothing(ctx, tt, header, before, row, after);
  }

  /** A complete row whose client email finds no client adds no ticket:
      removing it from the sheet changes nothing. */
  lemma ClientNotFoundContributesNothing(ctx: Context, tt: TicketType, header: seq<string>,
                                         before: seq<seq<string>>, row: seq<string>, after: seq<seq<string>>)
    requires CheckRequired(BuildRow(tt.name, header, row), tt.required) == Success([])
    requires Construct(BuildRow(tt.name, header, row), tt, ctx.defs, ctx.dir, ctx.defaults).Failure?
    requires Construct(BuildRow(tt.name, header, row), tt, ctx.defs, ctx.dir, ctx.defaults).error.ClientMissing?
    ensures RowsTickets(ctx, tt, header, before + [row] + after)
         == RowsTickets(ctx, tt, header, before + after)
  {
    DroppedRowContributesNothing(ctx, tt, header, before, row, after);
  }

  /** Every data row, as read, holds every column of the header row. */
  lemma ReadRowHasHeaderColumns(sheet: Sheet, name: string, i: int)
    requires 0 < i < |sheet|
    ensures forall f :: f in sheet[0] ==> f in BuildRow(name, ReadSheet(sheet)[0], ReadSheet(sheet)[i])
  {
    var cells := ReadSheet(sheet);
    var h := cells[0];
    BuildRowContents(name, h, cells[i]);
    forall f | f in sheet[0]
      ensures f in BuildRow(name, h, cells[i])
    {
      var j :| 0 <= j < |sheet[0]| && sheet[0][j] == f;
      assert h[..|sheet[0]|][j] == f;
    }
  }

  /** A data row shorter than the header reads its missing trailing
      cells as empty, under columns that do not occur again later. */
  lemma ShortRowCellIsBlank(sheet: Sheet, name: string, i: int, j: int)
    requires 0 < i < |sheet|
    requires |sheet[i]| <= j < |sheet[0]|
    requires sheet[0][j] != "" && sheet[0][j] !in sheet[0][j + 1..]
    ensures var row := BuildRow(name, ReadSheet(sheet)[0], ReadSheet(sheet)[i]);
      sheet[0][j] in row && row[sheet[0][j]] == ""
  {
    var cells := ReadSheet(sheet);
    var h := cells[0];
    var w := Width(sheet);
    BuildRowContents(name, h, cells[i]);
    assert h[j] == sheet[0][j] by { assert h[..|sheet[0]|][j] == sheet[0][j]; }
    forall k | j < k < w
      ensures h[k] != sheet[0][j]
    {
      if k < |sheet[0]| {
        assert h[k] == h[..|sheet[0]|][k] == sheet[0][j + 1..][k - j - 1];
      } else {
        assert h[k] == "";
      }
    }
    assert h[j] !in h[j + 1..w];
  }

  /** With every required column in the header, no data row ends the run
      for a missing column, and a row whose cell under a required column
      was left off the end is skipped. */
  lemma ShortRowIsSkipped(ctx: Context, sheet: Sheet, tt: TicketType, i: int, j: int)
    requires 0 < i < |sheet|
    requires forall f :: f in tt.required ==> f in sheet[0]
    requires |sheet[i]| <= j < |sheet[0]| && sheet[0][j] in tt.required
    requires sheet[0][j] != "" && sheet[0][j] !in sheet[0][j + 1..]
    ensures ProcessRow(ctx, tt, ReadSheet(sheet)[0], ReadSheet(sheet)[i]) == Success(None)
  {
    var cells := ReadSheet(sheet);
    var row := BuildRow(tt.name, cells[0], cells[i]);
    ReadRowHasHeaderColumns(sheet, tt.name, i);
    ShortRowCellIsBlank(sheet, tt.name, i, j);
    var k :| 0 <= k < |tt.required| && tt.required[k] == sheet[0][j];
    BlankRequiredIsSkipped(row, tt.required, k);
    CheckRequiredMeaning(row, tt.required);
  }

  /** A header `A, B` over a data row holding only `x`: the row is read
      as `x, ""`, so it is skipped rather than fatal. */
  lemma ShortRowExample(ctx: Context, tt: TicketType)
    requires tt.required == ["A", "B"]
    ensures SheetTickets(ctx, map[tt.name := [["A", "B"], ["x"]]], tt) == Success([])
  {
    var sheet: Sheet := [["A", "B"], ["x"]];
    var cells := ReadSheet(sheet);
    assert "B" in sheet[0] && "A" in sheet[0];
    assert sheet[0][2..] == [];
    ShortRowIsSkipped(ctx, sheet, tt, 1, 1);
    var book := map[tt.name := sheet];
    assert book[tt.name] == sheet;
    var rows := cells[1..];
    assert rows[0] == cells[1] && rows[1..] == [];
    assert ProcessRow(ctx, tt, cells[0], rows[0]) == Success(None);
    assert RowsTickets(ctx, tt, cells[0], rows[1..]) == Success([]);
    var none: seq<Payload> := [];
    assert none + none == none;
    assert RowsTickets(ctx, tt, cells[0], rows) == Success([]);
  }

  /** With every required column in the header, the required check of
      every data row succeeds: only a header lacking a required column
      can end the run with `MissingColumn`. */
  lemma HeaderColumnsAreNeverMissing(sheet: Sheet, tt: TicketType, i: int)
    requires 0 < i < |sheet|
    requires forall f :: f in tt.required ==> f in sheet[0]
    ensures CheckRequired(BuildRow(tt.name, ReadSheet(sheet)[0], ReadSheet(sheet)[i]), tt.required).Success?
  {
    ReadRowHasHeaderColumns(sheet, tt.name, i);
    CheckRequiredMeaning(BuildRow(tt.name, ReadSheet(sheet)[0], ReadSheet(sheet)[i]), tt.required);
  }

  /** A row lacking a required column ends the run, naming the first such column. */
  lemma MissingColumnIsFatal(ctx: Context, tt: TicketType, header: seq<string>, values: seq<string>, i: int)
    requires 0 <= i < |tt.required|
    requires tt.required[i] !in BuildRow(tt.name, header, values)
    ensures ProcessRow(ctx, tt, header, values).Failure?
    ensures exists j :: 0 <= j <= i && ProcessRow(ctx, tt, header, values) == Failure(MissingColumn(tt.required[j]))
  {
    CheckRequiredMeaning(BuildRow(tt.name, header, values), tt.required);
  }

  /** A sheet yields at most one payload per data row. */
  lemma {:induction false} AtMostOneTicketPerRow(ctx: Context, tt: TicketType, header: seq<string>,
                                                 rows: seq<seq<string>>)
    ensures RowsTickets(ctx, tt, header, rows).Success? ==>
      |RowsTickets(ctx, tt, header, rows).value| <= |rows|
    decreases |rows|
  {
    if rows != [] {
      AtMostOneTicketPerRow(ctx, tt, header, rows[1..]);
    }
  }

  /** Running three stages in sequence does not depend on grouping. */
  lemma ThenAssociative(x: Result<seq<Payload>, Fatal>, y: Result<seq<Payload>, Fatal>,
                        z: Result<seq<Payload>, Fatal>)
    ensures Then(Then(x, y), z) == Then(x, Then(y, z))
  {
    if x.Success? && y.Success? && z.Success? {
      assert (x.value + y.value) + z.value == x.value + (y.value + z.value);
    }
  }

  /** The batch of a non-empty list of ticket types: the first sheet, then the rest. */
  lemma CollectBatchStep(ctx: Context, book: Workbook, types: seq<TicketType>)
    requires types != []
    ensures CollectBatch(ctx, book, types) == Then(SheetTickets(ctx, book, types[0]), CollectBatch(ctx, book, types[1..]))
  {
  }

  /** Ticket types are processed strictly in configured order: the
      payloads of `a`'s sheets come before those of `b`'s. */
  lemma {:induction false} CollectBatchAppend(ctx: Context, book: Workbook, a: seq<TicketType>, b: seq<TicketType>)
    ensures CollectBatch(ctx, book, a + b) == Then(CollectBatch(ctx, book, a), CollectBatch(ctx, book, b))
    decreases |a|
  {
    if a == [] {
      assert a + b == b;
      var rb := CollectBatch(ctx, book, b);
      if rb.Success? {
        assert [] + rb.value == rb.value;
      }
    } else {
      assert (a + b)[0] == a[0];
      assert (a + b)[1..] == a[1..] + b;
      CollectBatchStep(ctx, book, a + b);
      CollectBatchStep(ctx, book, a);
      CollectBatchAppend(ctx, book, a[1..], b);
      ThenAssociative(SheetTickets(ctx, book, a[0]), CollectBatch(ctx, book, a[1..]), CollectBatch(ctx, book, b));
    }
  }

  /** The batch of a single ticket type is that sheet's payloads. */
  lemma CollectOne(ctx: Context, book: Workbook, tt: TicketType)
    ensures CollectBatch(ctx, book, [tt]) == SheetTickets(ctx, book, tt)
  {
    assert [tt][1..] == [];
    var s := SheetTickets(ctx, book, tt);
    if s.Success? {
      assert s.value + [] == s.value;
    }
  }
}

=== FILE: lookups.dfy ===
/** The client and location lookups (`get_client`, `get_location`). The
    remote search, the fetch by id and the operator's answer to the id
    prompt are inputs; what is modelled is how the number of search results
    decides the outcome. */
module Lookups {
  import opened Outcomes

  /** A client or location record as the help desk returns it. */
  datatype Record = Record(id: int, attrs: map<string, string>)

  /** The remote directory and the operator, as pure functions. A search
      or a fetch is None when its request fails or its answer is not valid
      JSON. `choose` is the answer to "Enter the ID to use" for a list of
      candidates, or None when the answer is not an integer. */
  datatype Directory = Directory(
    searchClients: string -> Option<seq<Record>>,
    fetchClient: int -> Option<Record>,
    searchLocations: string -> Option<seq<Record>>,
    fetchLocation: int -> Option<Record>,
    knownLocations: map<string, int>,
    choose: seq<Record> -> Option<int>)

  /** The ids offered to the operator, in result order. */
  function Ids(results: seq<Record>): (ids: seq<int>)
    ensures |ids| == |results|
    ensures forall i :: 0 <= i < |results| ==> ids[i] == results[i].id
  {
    if results == [] then [] else [results[0].id] + Ids(results[1..])
  }

  datatype ClientLookup = ClientFound(client: Record) | ClientNotFound | ClientFatal(error: Fatal)

  /** `get_client` once the search has returned `results`. */
  function ClassifyClients(email: string, results: seq<Record>, chosen: Option<int>,
                           fetch: int -> Option<Record>): (r: ClientLookup)
    ensures r.ClientNotFound? <==> |results| == 0
    ensures |results| == 1 ==> r == ClientFound(results[0])
    ensures |results| > 1 ==>
      (r.ClientFound? <==> chosen.Some? && chosen.value in Ids(results) && fetch(chosen.value).Some?)
    ensures |results| > 1 && r.ClientFound? ==> r.client == fetch(chosen.value).value
    ensures |results| > 1 && chosen.Some? && chosen.value !in Ids(results) ==>
      r == ClientFatal(InvalidClientId(chosen.value))
  {
    if |results| == 0 then ClientNotFound
    else if |results| == 1 then ClientFound(results[0])
    else
      match chosen
      case None => ClientFatal(ClientUnavailable(email))
      case Some(id) =>
        if id in Ids(results) then
          match fetch(id)
          case Some(client) => ClientFound(client)
          case None => ClientFatal(ClientUnavailable(email))
        else ClientFatal(InvalidClientId(id))
  }

  /** `get_location` once the search has returned `results`. */
  function ClassifyLocations(location: string, results: seq<Record>, chosen: Option<int>,
                             fetch: int -> Option<Record>): (r: Result<Record, Fatal>)
    ensures |results| == 0 <==> r == Failure(LocationNotFound(location))
    ensures |results| == 1 ==> r == Success(results[0])
    ensures |results| > 1 ==>
      (r.Success? <==> chosen.Some? && chosen.value in Ids(results) && fetch(chosen.value).Some?)
    ensures |results| > 1 && r.Success? ==> r.value == fetch(chosen.value).value
    ensures |results| > 1 && chosen.Some? && chosen.value !in Ids(results) ==>
      r == Failure(InvalidLocationId(chosen.value))
  {
    if |results| == 0 then Failure(LocationNotFound(location))
    else if |results| == 1 then Success(results[0])
    else
      match chosen
      case None => Failure(LocationUnavailable(location))
      case Some(id) =>
        if id in Ids(results) then
          match fetch(id)
          case Some(loc) => Success(loc)
          case None => Failure(LocationUnavailable(location))
        else Failure(InvalidLocationId(id))
  }

  /** The client lookup for one email address. */
  function LookupClient(dir: Directory, email: string): (r: ClientLookup)
    ensures dir.searchClients(email).None? ==> r == ClientFatal(ClientUnavailable(email))
    ensures r.ClientNotFound? <==> dir.searchClients(email) == Some([])
    ensures dir.searchClients(email).Some? ==>
      var results := dir.searchClients(email).value;
      r == ClassifyClients(email, results, dir.choose(results), dir.fetchClient)
  {
    match dir.searchClients(email)
    case None => ClientFatal(ClientUnavailable(email))
    case Some(results) => ClassifyClients(email, results, dir.choose(results), dir.fetchClient)
  }

  /** The location lookup, with the shortcut for configured location names. */
  function LookupLocation(dir: Directory, location: string): (r: Result<Record, Fatal>)
    ensures location !in dir.knownLocations && dir.searchLocations(location).None? ==>
      r == Failure(LocationUnavailable(location))
    ensures location !in dir.knownLocations && dir.searchLocations(location) == Some([]) ==>
      r == Failure(LocationNotFound(location))
    ensures location !in dir.knownLocations && dir.searchLocations(location).Some? ==>
      var results := dir.searchLocations(location).value;
      r == ClassifyLocations(location, results, dir.choose(results), dir.fetchLocation)
    ensures location in dir.knownLocations ==>
      r == (match dir.fetchLocation(dir.knownLocations[location])
            case Some(loc) => Success(loc)
            case None => Failure(LocationUnavailable(location)))
  {
    if location in dir.knownLocations then
      match dir.fetchLocation(dir.knownLocations[location])
      case Some(loc) => Success(loc)
      case None => Failure(LocationUnavailable(location))
    else
      match dir.searchLocations(location)
      case None => Failure(LocationUnavailable(location))
      case Some(results) => ClassifyLocations(location, results, dir.choose(results), dir.fetchLocation)
  }

  /** With at most one result the operator is not asked and nothing is
      fetched: the answer and the fetch function make no difference. */
  lemma NoPromptWithoutAmbiguity(email: string, results: seq<Record>,
                                 chosen1: Option<int>, fetch1: int -> Option<Record>,
                                 chosen2: Option<int>, fetch2: int -> Option<Record>)
    requires |results| <= 1
    ensures ClassifyClients(email, results, chosen1, fetch1) == ClassifyClients(email, results, chosen2, fetch2)
    ensures ClassifyLocations(email, results, chosen1, fetch1) == ClassifyLocations(email, results, chosen2, fetch2)
  {
  }

  /** A found record is either the only search result or the record
      fetched for a candidate id. */
  lemma FoundIsCandidate(email: string, results: seq<Record>, chosen: Option<int>,
                         fetch: int -> Option<Record>)
    ensures var r := ClassifyClients(email, results, chosen, fetch);
      r.ClientFound? ==>
        || (|results| == 1 && r.client == results[0])
        || (exists i :: 0 <= i < |results| && Some(r.client) == fetch(results[i].id))
  {
  }

  /** The two lookups agree whenever the search found something; they part
      only on an empty result, which is fatal for a location and a
      non-fatal "not found" for a client. */
  lemma ClientAndLocationAgree(name: string, results: seq<Record>, chosen: Option<int>,
                               fetch: int -> Option<Record>)
    ensures var c := ClassifyClients(name, results, chosen, fetch);
      var l := ClassifyLocations(name, results, chosen, fetch);
      && (c.ClientFound? <==> l.Success?)
      && (c.ClientFound? ==> c.client == l.value)
      && (c.ClientNotFound? <==> l == Failure(LocationNotFound(name)))
  {
  }
}

=== FILE: mapper.dfy ===
/** Payload mapping (`construct_data`): one accepted row and one ticket
    type become the body of a ticket-creation request. */
module Mapper {
  import opened Outcomes
  import opened Seqs
  import opened Rows
  import opened Lookups

  /** The column whose value names the client instead of filling a custom field. */
  const EmailField := "Email for Client"
  const RequestDetailField := "Request Detail"
  const FirstNameField := "First Name"
  const LastNameField := "Last Name"
  const DetailMarker := "[BULK TICKET] "
  const RequestTypeTag := "RequestType"

  /** A column's custom-field definition id: one id for every ticket type,
      or one id per ticket type name. */
  datatype DefinitionId = Fixed(id: int) | PerType(ids: map<string, int>)

  type DefinitionIds = map<string, DefinitionId>

  /** One configured ticket type: its sheet name, its problem-type id and
      its required and optional columns. */
  datatype TicketType = TicketType(name: string, id: int, required: seq<string>, optional: seq<string>)

  datatype CustomField = CustomField(definitionId: int, restValue: string)

  datatype ProblemType = ProblemType(id: int, kind: string)

  /** The ticket defaults: notification flags and the optional cc address. */
  datatype Flags = Flags(emailClient: bool, emailTech: bool, emailCc: bool, emailBcc: bool,
                         assignToCreatingTech: bool, sendEmail: bool,
                         ccAddressesForTech: Option<string>)

  /** Values fixed for the whole run before any row is read: the ticket
      defaults, the default client and the location text. */
  datatype Defaults = Defaults(flags: Flags, client: Record, location: string)

  datatype Payload = Payload(flags: Flags, customFields: seq<CustomField>, problemtype: ProblemType,
                             clientReporter: Record, location: Record, detail: string)

  /** Why a row yields no payload: its client was not found (the row is
      dropped), a lookup ended the run, or a key was missing (the
      exception path, which drops the row here). */
  datatype Abandon = ClientMissing(email: string) | Stopped(error: Fatal) | Aborted(key: string)

  /** What the required-field loop has built so far. */
  datatype Partial = Partial(fields: seq<CustomField>, reporter: Record)

  /** The definition id a column resolves to for a ticket type, if any. */
  function DefinitionFor(defs: DefinitionIds, ticketType: string, field: string): Option<int> {
    if field !in defs then None
    else match defs[field]
      case Fixed(id) => Some(id)
      case PerType(ids) => if ticketType in ids then Some(ids[ticketType]) else None
  }

  /** The custom field a column of `row` contributes, if it has a value and
      resolves to a definition id. */
  function Entry(row: Row, ticketType: string, defs: DefinitionIds, field: string): Option<CustomField> {
    if field !in row then None
    else match DefinitionFor(defs, ticketType, field)
      case Some(id) => Some(CustomField(id, row[field]))
      case None => None
  }

  function RequiredEntry(row: Row, ticketType: string, defs: DefinitionIds, field: string): Option<CustomField> {
    if field == EmailField then None else Entry(row, ticketType, defs, field)
  }

  function OptionalEntry(row: Row, ticketType: string, defs: DefinitionIds, field: string): Option<CustomField> {
    if field in row && !Blank(row[field]) then Entry(row, ticketType, defs, field) else None
  }

  /** Reference definition: the custom fields the required columns contribute. */
  function RequiredEntries(row: Row, ticketType: string, defs: DefinitionIds, fields: seq<string>): seq<CustomField> {
    FilterMap(fields, f => RequiredEntry(row, ticketType, defs, f))
  }

  /** Reference definition: the custom fields the optional columns contribute. */
  function OptionalEntries(row: Row, ticketType: string, defs: DefinitionIds, fields: seq<string>): seq<CustomField> {
    FilterMap(fields, f => OptionalEntry(row, ticketType, defs, f))
  }

  /** One turn of the required-field loop. */
  function RequiredStep(row: Row, tt: TicketType, defs: DefinitionIds, dir: Directory,
                        field: string, acc: Partial): Result<Partial, Abandon>
  {
    if field == EmailField then
      if field !in row then Failure(Aborted(field))
      else
        match LookupClient(dir, row[field])
        case ClientFound(c) => Success(acc.(reporter := c))
        case ClientNotFound => Failure(ClientMissing(row[field]))
        case ClientFatal(e) => Failure(Stopped(e))
    else if field !in defs then Failure(Aborted(field))
    else
      match defs[field]
      case PerType(ids) =>
        // a missing per-type id (or value) is reported and the column skipped
        if tt.name in ids && field in row then
          Success(acc.(fields := acc.fields + [CustomField(ids[tt.name], row[field])]))
        else Success(acc)
      case Fixed(id) =>
        if field in row then Success(acc.(fields := acc.fields + [CustomField(id, row[field])]))
        else Failure(Aborted(field))
  }

  /** The loop over the required columns, in configured order. */
  function RequiredLoop(row: Row, tt: TicketType, defs: DefinitionIds, dir: Directory,
                        fields: seq<string>, acc: Partial): Result<Partial, Abandon>
    decreases |fields|
  {
    if fields == [] then Success(acc)
    else
      match RequiredStep(row, tt, defs, dir, fields[0], acc)
      case Failure(e) => Failure(e)
      case Success(next) => RequiredLoop(row, tt, defs, dir, fields[1..], next)
  }

  /** The loop over the optional columns: a column with a value contributes
      a custom field, its id resolved for the ticket type like a required
      column's. */
  function OptionalLoop(row: Row, tt: TicketType, defs: DefinitionIds,
                        fields: seq<string>, acc: seq<CustomField>): Result<seq<CustomField>, Abandon>
    decreases |fields|
  {
    if fields == [] then Success(acc)
    else
      var f := fields[0];
      if f !in row then Failure(Aborted(f))
      else if Blank(row[f]) then OptionalLoop(row, tt, defs, fields[1..], acc)
      else if f !in defs then Failure(Aborted(f))
      else
        match DefinitionFor(defs, tt.name, f)
        case Some(id) => OptionalLoop(row, tt, defs, fields[1..], acc + [CustomField(id, row[f])])
        case None => OptionalLoop(row, tt, defs, fields[1..], acc)
  }

  /** A custom field as the source builds it for an optional column: its
      definition id is whatever the configuration holds, a per-type table
      included. */
  datatype RawField = RawField(definitionId: DefinitionId, restValue: string)

  /** The optional-column loop as written: no per-type resolution. */
  function OptionalLoopAsWritten(row: Row, defs: DefinitionIds, fields: seq<string>,
                                 acc: seq<RawField>): Result<seq<RawField>, Abandon>
    decreases |fields|
  {
    if fields == [] then Success(acc)
    else
      var f := fields[0];
      if f !in row then Failure(Aborted(f))
      else if Blank(row[f]) then OptionalLoopAsWritten(row, defs, fields[1..], acc)
      else if f !in defs then Failure(Aborted(f))
      else OptionalLoopAsWritten(row, defs, fields[1..], acc + [RawField(defs[f], row[f])])
  }

  /** The ticket's detail text. */
  function Detail(row: Row, ticketType: string): (r: Result<string, Abandon>)
    ensures r.Success? ==> DetailMarker <= r.value
    ensures r.Success? <==>
      RequestDetailField in row || (FirstNameField in row && LastNameField in row)
    ensures RequestDetailField in row ==> r.value[|DetailMarker|..] == row[RequestDetailField]
    ensures RequestDetailField !in row && r.Success? ==>
      r.value[|DetailMarker|..] == ticketType + " for " + row[FirstNameField] + " " + row[LastNameField]
  {
    if RequestDetailField in row then Success(DetailMarker + row[RequestDetailField])
    else if FirstNameField !in row then Failure(Aborted(FirstNameField))
    else if LastNameField !in row then Failure(Aborted(LastNameField))
    else Success(DetailMarker + ticketType + " for " + row[FirstNameField] + " " + row[LastNameField])
  }

  /** `construct_data`: the payload for one row, or why there is none. */
  function Construct(row: Row, tt: TicketType, defs: DefinitionIds, dir: Directory,
                     defaults: Defaults): (r: Result<Payload, Abandon>)
    ensures r.Success? ==> r.value.problemtype == ProblemType(tt.id, RequestTypeTag)
    ensures r.Success? ==> r.value.flags == defaults.flags
    ensures r.Success? ==> LookupLocation(dir, defaults.location) == Success(r.value.location)
    ensures r.Success? ==> Detail(row, tt.name) == Success(r.value.detail)
  {
    match RequiredLoop(row, tt, defs, dir, tt.required, Partial([], defaults.client))
    case Failure(e) => Failure(e)
    case Success(part) =>
      match OptionalLoop(row, tt, defs, tt.optional, part.fields)
      case Failure(e) => Failure(e)
      case Success(fields) =>
        match LookupLocation(dir, defaults.location)
        case Failure(e) => Failure(Stopped(e))
        case Success(loc) =>
          match Detail(row, tt.name)
          case Failure(e) => Failure(e)
          case Success(detail) =>
            Success(Payload(defaults.flags, fields, ProblemType(tt.id, RequestTypeTag),
                            part.reporter, loc, detail))
  }
}

=== FILE: mapper_properties.dfy ===
/** What `construct_data` promises about the payload it builds: which
    custom fields it holds and in what order, which client it names, and
    when the row yields nothing. */
module MapperProperties {
  import opened Outcomes
  import opened Seqs
  import opened Rows
  import opened Lookups
  import opened Mapper

  /** The configuration invariant: every required column except the client
      email, and every optional column, has a definition id. */
  predicate WellFormed(defs: DefinitionIds, tt: TicketType) {
    && (forall f :: f in tt.required && f != EmailField ==> f in defs)
    && (forall f :: f in tt.optional ==> f in defs)
  }

  /** The row has every configured column and what the detail text needs. */
  predicate Covers(row: Row, tt: TicketType) {
    && (forall f :: f in tt.required ==> f in row)
    && (forall f :: f in tt.optional ==> f in row)
    && (RequestDetailField in row || (FirstNameField in row && LastNameField in row))
  }

  /** The required loop appends the reference entries of its columns in
      configured order; the client email column sets the reporter to the
      lookup's record, or ends the row when the lookup does not find one. */
  lemma {:induction false} RequiredLoopMeaning(row: Row, tt: TicketType, defs: DefinitionIds,
                                               dir: Directory, fields: seq<string>, acc: Partial)
    requires forall f :: f in fields ==> f in row
    requires forall f :: f in fields && f != EmailField ==> f in defs
    ensures var r := RequiredLoop(row, tt, defs, dir, fields, acc);
      var entries := acc.fields + RequiredEntries(row, tt.name, defs, fields);
      && (EmailField !in fields ==> r == Success(Partial(entries, acc.reporter)))
      && (EmailField in fields ==>
            match LookupClient(dir, row[EmailField])
            case ClientFound(c) => r == Success(Partial(entries, c))
            case ClientNotFound => r == Failure(ClientMissing(row[EmailField]))
            case ClientFatal(e) => r == Failure(Stopped(e)))
    decreases |fields|
  {
    if fields != [] {
      var f := fields[0];
      var rest := fields[1..];
      assert forall g :: g in rest ==> g in fields;
      var step := RequiredStep(row, tt, defs, dir, f, acc);
      assert RequiredEntries(row, tt.name, defs, fields)
          == (match RequiredEntry(row, tt.name, defs, f) case Some(u) => [u] case None => [])
             + RequiredEntries(row, tt.name, defs, rest);
      if f == EmailField {
        match LookupClient(dir, row[EmailField])
        case ClientFound(c) =>
          assert step == Success(acc.(reporter := c));
          assert RequiredLoop(row, tt, defs, dir, fields, acc) == RequiredLoop(row, tt, defs, dir, rest, step.value);
          RequiredLoopMeaning(row, tt, defs, dir, rest, step.value);
          assert RequiredEntries(row, tt.name, defs, fields) == RequiredEntries(row, tt.name, defs, rest);
        case ClientNotFound =>
        case ClientFatal(e) =>
      } else {
        var head := match RequiredEntry(row, tt.name, defs, f) case Some(u) => [u] case None => [];
        assert step.Success?;
        assert RequiredLoop(row, tt, defs, dir, fields, acc) == RequiredLoop(row, tt, defs, dir, rest, step.value);
        RequiredLoopMeaning(row, tt, defs, dir, rest, step.value);
        assert step.value.reporter == acc.reporter;
        assert step.value.fields == acc.fields + head;
        assert (acc.fields + head) + RequiredEntries(row, tt.name, defs, rest)
            == acc.fields + (head + RequiredEntries(row, tt.name, defs, rest));
        assert EmailField in fields <==> EmailField in rest;
      }
    } else {
      assert RequiredEntries(row, tt.name, defs, fields) == [];
      assert acc.fields + [] == acc.fields;
    }
  }

  /** The optional loop appends exactly the reference entries: one per
      column with a value whose id resolves, in configured order. */
  lemma {:induction false} OptionalLoopMeaning(row: Row, tt: TicketType, defs: DefinitionIds,
                                               fields: seq<string>, acc: seq<CustomField>)
    requires forall f :: f in fields ==> f in row && f in defs
    ensures OptionalLoop(row, tt, defs, fields, acc)
         == Success(acc + OptionalEntries(row, tt.name, defs, fields))
    decreases |fields|
  {
    if fields != [] {
      var f := fields[0];
      var rest := fields[1..];
      assert forall g :: g in rest ==> g in fields;
      assert OptionalEntries(row, tt.name, defs, fields)
          == (match OptionalEntry(row, tt.name, defs, f) case Some(u) => [u] case None => [])
             + OptionalEntries(row, tt.name, defs, rest);
      if Blank(row[f]) {
        assert OptionalLoop(row, tt, defs, fields, acc) == OptionalLoop(row, tt, defs, rest, acc);
        assert OptionalEntries(row, tt.name, defs, fields) == OptionalEntries(row, tt.name, defs, rest);
        OptionalLoopMeaning(row, tt, defs, rest, acc);
      } else {
        match DefinitionFor(defs, tt.name, f)
        case Some(id) =>
          OptionalLoopMeaning(row, tt, defs, rest, acc + [CustomField(id, row[f])]);
          assert (acc + [CustomField(id, row[f])]) + OptionalEntries(row, tt.name, defs, rest)
              == acc + ([CustomField(id, row[f])] + OptionalEntries(row, tt.name, defs, rest));
        case None =>
          OptionalLoopMeaning(row, tt, defs, rest, acc);
      }
    } else {
      assert OptionalEntries(row, tt.name, defs, fields) == [];
      assert acc + [] == acc;
    }
  }

  /** For a well-formed ticket type and a row with every configured column:
      a client email the lookup cannot find drops the row; a fatal lookup
      stops the run; otherwise the payload exists exactly when the location
      resolves, and then its custom fields are the required entries
      followed by the optional ones and its reporter is the looked-up client
      (or the run's default client when the type has no email column). */
  lemma ConstructMeaning(row: Row, tt: TicketType, defs: DefinitionIds, dir: Directory,
                         defaults: Defaults)
    requires WellFormed(defs, tt)
    requires Covers(row, tt)
    ensures var r := Construct(row, tt, defs, dir, defaults);
      && (EmailField in tt.required && LookupClient(dir, row[EmailField]).ClientNotFound? ==>
            r == Failure(ClientMissing(row[EmailField])))
      && (EmailField in tt.required && LookupClient(dir, row[EmailField]).ClientFatal? ==>
            r == Failure(Stopped(LookupClient(dir, row[EmailField]).error)))
      && ((EmailField !in tt.required || LookupClient(dir, row[EmailField]).ClientFound?) ==>
            && (r.Success? <==> LookupLocation(dir, defaults.location).Success?)
            && (r.Failure? ==> r.error == Stopped(LookupLocation(dir, defaults.location).error)))
      && (r.Success? ==>
            && r.value.customFields
               == RequiredEntries(row, tt.name, defs, tt.required)
                  + OptionalEntries(row, tt.name, defs, tt.optional)
            && r.value.clientReporter
               == (if EmailField in tt.required then LookupClient(dir, row[EmailField]).client
                   else defaults.client))
  {
    RequiredLoopMeaning(row, tt, defs, dir, tt.required, Partial([], defaults.client));
    var req := RequiredLoop(row, tt, defs, dir, tt.required, Partial([], defaults.client));
    if req.Success? {
      OptionalLoopMeaning(row, tt, defs, tt.optional, req.value.fields);
      assert [] + RequiredEntries(row, tt.name, defs, tt.required)
          == RequiredEntries(row, tt.name, defs, tt.required);
    }
  }

  /** With a fixed id for every column, the payload holds one custom field
      per required column other than the client email, plus one per
      optional column with a value. */
  lemma CustomFieldCount(row: Row, tt: TicketType, defs: DefinitionIds, dir: Directory,
                         defaults: Defaults, p: Payload)
    requires WellFormed(defs, tt)
    requires Covers(row, tt)
    requires forall f :: f in defs ==> defs[f].Fixed?
    requires Construct(row, tt, defs, dir, defaults) == Success(p)
    ensures |p.customFields|
         == |Filter(tt.required, f => f != EmailField)|
            + |Filter(tt.optional, f => f in row && !Blank(row[f]))|
  {
    ConstructMeaning(row, tt, defs, dir, defaults);
    RequiredEntriesCount(row, tt.name, defs, tt.required);
    OptionalEntriesCount(row, tt.name, defs, tt.optional);
  }

  lemma {:induction false} RequiredEntriesCount(row: Row, ticketType: string, defs: DefinitionIds,
                                                fields: seq<string>)
    requires forall f :: f in fields ==> f in row
    requires forall f :: f in fields && f != EmailField ==> f in defs && defs[f].Fixed?
    ensures |RequiredEntries(row, ticketType, defs, fields)| == |Filter(fields, f => f != EmailField)|
    decreases |fields|
  {
    if fields != [] {
      assert forall g :: g in fields[1..] ==> g in fields;
      RequiredEntriesCount(row, ticketType, defs, fields[1..]);
      assert RequiredEntries(row, ticketType, defs, fields)
          == (match RequiredEntry(row, ticketType, defs, fields[0]) case Some(u) => [u] case None => [])
             + RequiredEntries(row, ticketType, defs, fields[1..]);
    }
  }

  lemma {:induction false} OptionalEntriesCount(row: Row, ticketType: string, defs: DefinitionIds,
                                                fields: seq<string>)
    requires forall f :: f in fields ==> f in row && f in defs && defs[f].Fixed?
    ensures |OptionalEntries(row, ticketType, defs, fields)| == |Filter(fields, f => f in row && !Blank(row[f]))|
    decreases |fields|
  {
    if fields != [] {
      assert forall g :: g in fields[1..] ==> g in fields;
      OptionalEntriesCount(row, ticketType, defs, fields[1..]);
      assert OptionalEntries(row, ticketType, defs, fields)
          == (match OptionalEntry(row, ticketType, defs, fields[0]) case Some(u) => [u] case None => [])
             + OptionalEntries(row, ticketType, defs, fields[1..]);
    }
  }

  /** The source as written, on a per-type id for an optional column: the
      whole table is sent as the definition id, where the required-column
      path and the corrected loop send that ticket type's id. */
  lemma OptionalPerTypeIdSentWhole()
    ensures var ids := map["Example Ticket Type" := 4];
      var defs: DefinitionIds := map["Position" := PerType(ids)];
      var row: Row := map["Position" := "Manager"];
      var tt := TicketType("Example Ticket Type", 8, [], ["Position"]);
      && OptionalLoopAsWritten(row, defs, ["Position"], []) == Success([RawField(PerType(ids), "Manager")])
      && OptionalLoop(row, tt, defs, ["Position"], []) == Success([CustomField(4, "Manager")])
  {
    var ids := map["Example Ticket Type" := 4];
    var defs: DefinitionIds := map["Position" := PerType(ids)];
    var row: Row := map["Position" := "Manager"];
    var tt := TicketType("Example Ticket Type", 8, [], ["Position"]);
    var fields := ["Position"];
    assert fields[0] == "Position" && fields[1..] == [];
    assert !Blank(row["Position"]);
    assert OptionalLoopAsWritten(row, defs, fields, [])
        == OptionalLoopAsWritten(row, defs, [], [] + [RawField(PerType(ids), "Manager")]);
    assert DefinitionFor(defs, tt.name, "Position") == Some(4);
    assert OptionalLoop(row, tt, defs, fields, [])
        == OptionalLoop(row, tt, defs, [], [] + [CustomField(4, "Manager")]);
    assert [] + [RawField(PerType(ids), "Manager")] == [RawField(PerType(ids), "Manager")];
    assert [] + [CustomField(4, "Manager")] == [CustomField(4, "Manager")];
  }

  /** The corrected loop: every optional entry carries the id its column
      resolves to for this ticket type and that column's non-blank value. */
  lemma OptionalIdsResolved(row: Row, tt: TicketType, defs: DefinitionIds, fields: seq<string>)
    requires forall f :: f in fields ==> f in row && f in defs
    ensures OptionalLoop(row, tt, defs, fields, []).Success?
    ensures forall e :: e in OptionalLoop(row, tt, defs, fields, []).value ==>
      exists f :: f in fields && DefinitionFor(defs, tt.name, f) == Some(e.definitionId)
                 && !Blank(row[f]) && e.restValue == row[f]
  {
    OptionalLoopMeaning(row, tt, defs, fields, []);
    OptionalEntriesResolved(row, tt.name, defs, fields);
  }

  lemma {:induction false} OptionalEntriesResolved(row: Row, ticketType: string, defs: DefinitionIds,
                                                   fields: seq<string>)
    ensures forall e :: e in OptionalEntries(row, ticketType, defs, fields) ==>
      exists f :: f in fields && f in row && DefinitionFor(defs, ticketType, f) == Some(e.definitionId)
                 && !Blank(row[f]) && e.restValue == row[f]
    decreases |fields|
  {
    if fields != [] {
      OptionalEntriesResolved(row, ticketType, defs, fields[1..]);
      assert forall g :: g in fields[1..] ==> g in fields;
      assert OptionalEntries(row, ticketType, defs, fields)
          == (match OptionalEntry(row, ticketType, defs, fields[0]) case Some(u) => [u] case None => [])
             + OptionalEntries(row, ticketType, defs, fields[1..]);
    }
  }

  /** Two sample detail texts, one from each branch. */
  lemma DetailExamples()
    ensures Detail(map[RequestDetailField := "VPN issue"], "Example Ticket Type")
         == Success("[BULK TICKET] VPN issue")
    ensures Detail(map[FirstNameField := "Jane", LastNameField := "Doe"], "Example Ticket Type")
         == Success("[BULK TICKET] Example Ticket Type for Jane Doe")
  {
    DetailFromRequestDetail();
    DetailFromNames();
  }

  lemma DetailFromRequestDetail()
    ensures Detail(map[RequestDetailField := "VPN issue"], "Example Ticket Type")
         == Success("[BULK TICKET] VPN issue")
  {
    assert DetailMarker + "VPN issue" == "[BULK TICKET] VPN issue";
  }

  lemma DetailFromNames()
    ensures Detail(map[FirstNameField := "Jane", LastNameField := "Doe"], "Example Ticket Type")
         == Success("[BULK TICKET] Example Ticket Type for Jane Doe")
  {
    var row := map[FirstNameField := "Jane", LastNameField := "Doe"];
    NameColumnsAreNotRequestDetail();
    assert Detail(row, "Example Ticket Type")
        == Success(DetailMarker + "Example Ticket Type" + " for " + "Jane" + " " + "Doe");
    ExampleDetailText();
  }

  lemma NameColumnsAreNotRequestDetail()
    ensures RequestDetailField != FirstNameField && RequestDetailField != LastNameField
  {
    assert RequestDetailField[0] == 'R' && FirstNameField[0] == 'F' && LastNameField[0] == 'L';
  }

  lemma ExampleDetailText()
    ensures DetailMarker + "Example Ticket Type" + " for " + "Jane" + " " + "Doe"
         == "[BULK TICKET] Example Ticket Type for Jane Doe"
  {
  }
}

=== FILE: outcomes.dfy ===
/** Outcome types shared by every part of the model: an optional value, a
    success-or-error result, and the conditions on which the program ends
    the whole run with a message instead of carrying on. */
module Outcomes {

  datatype Option<+T> = None | Some(value: T)

  datatype Result<+T, +E> = Success(value: T) | Failure(error: E)

  /** The fatal conditions. Each one stops the run before anything is
      submitted; none of them is retried. */
  datatype Fatal =
    | UnsupportedFileType                  // the ticket file is not .xls, .xlsx or .xlsm
    | SheetUnreadable(sheet: string)       // a ticket type's sheet is absent or has no header row
    | MissingColumn(field: string)         // a required column is absent from a row
    | LocationNotFound(location: string)   // the location search found nothing
    | InvalidLocationId(id: int)           // the chosen id is not one of the candidates
    | LocationUnavailable(location: string)// a location request or the id prompt failed
    | InvalidClientId(id: int)             // the chosen id is not one of the candidates
    | ClientUnavailable(email: string)     // a client request or the id prompt failed
}

=== FILE: rows.dfy ===
/** Row assembly and the required-field check of `get_rows`: a row of a
    ticket-type sheet becomes a mapping from column name to cell value,
    and the required columns decide whether it is fatal, skipped or kept. */
module Rows {
  import opened Outcomes
  import opened Seqs

  /** One spreadsheet row keyed by the header row's column names. */
  type Row = map<string, string>

  /** The entry every row starts from, holding the sheet (ticket type) name. */
  const TicketTypeKey := "Ticket Type"

  /** Python falsiness of a cell value: an empty cell reads as "". */
  predicate Blank(v: string) {
    v == ""
  }

  function Min(a: nat, b: nat): nat {
    if a < b then a else b
  }

  /** `for key, value in zip(keys, values): row[key] = value`, starting from `acc`. */
  function Zip(acc: Row, keys: seq<string>, values: seq<string>): Row
    decreases |keys|
  {
    if keys == [] || values == [] then acc
    else Zip(acc[keys[0] := values[0]], keys[1..], values[1..])
  }

  /** The row built from the sheet name, the header and one line of values. */
  function BuildRow(sheet: string, keys: seq<string>, values: seq<string>): Row {
    Zip(map[TicketTypeKey := sheet], keys, values)
  }

  /** Pairing stops at the shorter of header and values; a later column of
      the same name overwrites an earlier one; keys never paired keep the
      value they started with. */
  lemma ZipContents(acc: Row, keys: seq<string>, values: seq<string>)
    ensures var r := Zip(acc, keys, values);
      var n := Min(|keys|, |values|);
      && r.Keys == acc.Keys + (set j | 0 <= j < n :: keys[j])
      && (forall k :: k in acc && k !in keys[..n] ==> r[k] == acc[k])
      && (forall j :: 0 <= j < n && keys[j] !in keys[j + 1..n] ==> r[keys[j]] == values[j])
  {
    ZipKeys(acc, keys, values);
    ZipValues(acc, keys, values);
  }

  lemma {:induction false} ZipKeys(acc: Row, keys: seq<string>, values: seq<string>)
    ensures Zip(acc, keys, values).Keys == acc.Keys + (set j | 0 <= j < Min(|keys|, |values|) :: keys[j])
    decreases |keys|
  {
    var n := Min(|keys|, |values|);
    if keys != [] && values != [] {
      var keys' := keys[1..];
      ZipKeys(acc[keys[0] := values[0]], keys', values[1..]);
      var all := set j | 0 <= j < n :: keys[j];
      var tail := set j | 0 <= j < n - 1 :: keys'[j];
      forall x | x in all
        ensures x in {keys[0]} + tail
      {
        var j :| 0 <= j < n && keys[j] == x;
        if j > 0 {
          assert keys'[j - 1] == x;
        }
      }
      forall x | x in tail
        ensures x in all
      {
        var j :| 0 <= j < n - 1 && keys'[j] == x;
        assert keys[j + 1] == x;
      }
      assert all == {keys[0]} + tail;
    }
  }

  lemma ZipValues(acc: Row, keys: seq<string>, values: seq<string>)
    ensures var r := Zip(acc, keys, values);
      var n := Min(|keys|, |values|);
      && (forall k :: k in acc && k !in keys[..n] ==> k in r && r[k] == acc[k])
      && (forall j :: 0 <= j < n && keys[j] !in keys[j + 1..n] ==> keys[j] in r && r[keys[j]] == values[j])
  {
    ZipKeeps(acc, keys, values);
    ZipPairs(acc, keys, values);
  }

  lemma {:induction false} ZipKeeps(acc: Row, keys: seq<string>, values: seq<string>)
    ensures var r := Zip(acc, keys, values);
      var n := Min(|keys|, |values|);
      forall k :: k in acc && k !in keys[..n] ==> k in r && r[k] == acc[k]
    decreases |keys|
  {
    var n := Min(|keys|, |values|);
    if keys != [] && values != [] {
      var acc' := acc[keys[0] := values[0]];
      var keys' := keys[1..];
      ZipKeeps(acc', keys', values[1..]);
      assert Zip(acc, keys, values) == Zip(acc', keys', values[1..]);
      assert keys'[..n - 1] == keys[1..n];
      forall k | k in acc && k !in keys[..n]
        ensures k in acc' && acc'[k] == acc[k] && k !in keys'[..n - 1]
      {
        assert keys[0] in keys[..n];
      }
    }
  }

  lemma {:induction false} ZipPairs(acc: Row, keys: seq<string>, values: seq<string>)
    ensures var r := Zip(acc, keys, values);
      var n := Min(|keys|, |values|);
      forall j :: 0 <= j < n && keys[j] !in keys[j + 1..n] ==> keys[j] in r && r[keys[j]] == values[j]
    decreases |keys|, 0
  {
    var n := Min(|keys|, |values|);
    if keys != [] && values != [] {
      var acc' := acc[keys[0] := values[0]];
      var keys', values' := keys[1..], values[1..];
      var r := Zip(acc, keys, values);
      assert r == Zip(acc', keys', values');
      forall j | 0 <= j < n && keys[j] !in keys[j + 1..n]
        ensures keys[j] in r && r[keys[j]] == values[j]
      {
        if j == 0 {
          FirstPairKept(acc, keys, values);
        } else {
          LaterPairKept(acc', keys', values', j - 1);
          assert keys'[j - 1] == keys[j] && values'[j - 1] == values[j];
        }
      }
    }
  }

  lemma LaterPairKept(acc: Row, keys: seq<string>, values: seq<string>, j: nat)
    requires j < Min(|keys|, |values|)
    requires keys[j] !in keys[j + 1..Min(|keys|, |values|)]
    ensures keys[j] in Zip(acc, keys, values) && Zip(acc, keys, values)[keys[j]] == values[j]
    decreases |keys|, 1
  {
    ZipPairs(acc, keys, values);
  }

  /** The first pair survives when its key does not come again. */
  lemma FirstPairKept(acc: Row, keys: seq<string>, values: seq<string>)
    requires keys != [] && values != []
    requires keys[0] !in keys[1..Min(|keys|, |values|)]
    ensures keys[0] in Zip(acc, keys, values) && Zip(acc, keys, values)[keys[0]] == values[0]
  {
    var n := Min(|keys|, |values|);
    var acc' := acc[keys[0] := values[0]];
    ZipKeeps(acc', keys[1..], values[1..]);
    assert keys[1..][..n - 1] == keys[1..n];
  }

  /** A built row holds `Ticket Type` and the header's keys up to the
      shorter of header and values, and nothing else; each such key maps to
      the value at its last position; `Ticket Type` maps to the sheet name
      unless a header column of that name overwrote it; columns past the
      shorter of the two are ignored. */
  lemma BuildRowContents(sheet: string, keys: seq<string>, values: seq<string>)
    ensures var r := BuildRow(sheet, keys, values);
      var n := Min(|keys|, |values|);
      && r.Keys == {TicketTypeKey} + (set j | 0 <= j < n :: keys[j])
      && (TicketTypeKey !in keys[..n] ==> r[TicketTypeKey] == sheet)
      && (forall j :: 0 <= j < n && keys[j] !in keys[j + 1..n] ==> r[keys[j]] == values[j])
      && r == BuildRow(sheet, keys[..n], values[..n])
  {
    var n := Min(|keys|, |values|);
    ZipContents(map[TicketTypeKey := sheet], keys, values);
    ZipTruncate(map[TicketTypeKey := sheet], keys, values);
  }

  lemma {:induction false} ZipTruncate(acc: Row, keys: seq<string>, values: seq<string>)
    ensures var n := Min(|keys|, |values|);
      Zip(acc, keys, values) == Zip(acc, keys[..n], values[..n])
    decreases |keys|
  {
    var n := Min(|keys|, |values|);
    if keys != [] && values != [] {
      ZipTruncate(acc[keys[0] := values[0]], keys[1..], values[1..]);
      assert keys[..n][1..] == keys[1..][..n - 1];
      assert values[..n][1..] == values[1..][..n - 1];
    }
  }

  /** The required-field loop of `get_rows`: the required fields whose
      value is blank, in configured order, or the first required column the
      row does not have, which ends the run. */
  function CheckRequired(row: Row, required: seq<string>): Result<seq<string>, Fatal>
  {
    if required == [] then Success([])
    else if required[0] !in row then Failure(MissingColumn(required[0]))
    else
      match CheckRequired(row, required[1..])
      case Failure(e) => Failure(e)
      case Success(rest) => Success(if Blank(row[required[0]]) then [required[0]] + rest else rest)
  }

  /** Whether a required field counts as missing in `row`. */
  predicate BlankIn(row: Row, field: string) {
    field in row && Blank(row[field])
  }

  /** The check fails exactly when some required column is absent, and then
      names the first absent one; otherwise it yields exactly the required
      fields with a blank value, in configured order. */
  lemma {:induction false} CheckRequiredMeaning(row: Row, required: seq<string>)
    ensures var r := CheckRequired(row, required);
      && (r.Failure? <==> exists i :: 0 <= i < |required| && required[i] !in row)
      && (r.Failure? ==>
            exists i :: (0 <= i < |required| && required[i] !in row
                         && r.error == MissingColumn(required[i])
                         && forall j :: 0 <= j < i ==> required[j] in row))
      && (r.Success? ==> r.value == Filter(required, f => BlankIn(row, f)))
    decreases |required|
  {
    if required != [] {
      CheckRequiredMeaning(row, required[1..]);
      var r := CheckRequired(row, required);
      if required[0] in row {
        if r.Failure? {
          var rest := CheckRequired(row, required[1..]);
          var i :| 0 <= i < |required[1..]| && required[1..][i] !in row
            && rest.error == MissingColumn(required[1..][i])
            && forall j :: 0 <= j < i ==> required[1..][j] in row;
          assert required[i + 1] !in row;
          forall j | 0 <= j < i + 1
            ensures required[j] in row
          {
            if j > 0 {
              assert required[j] == required[1..][j - 1];
            }
          }
        } else {
          forall i | 0 <= i < |required|
            ensures required[i] in row
          {
            if i > 0 {
              assert required[i] == required[1..][i - 1];
            }
          }
        }
      }
    }
  }

  /** A row with a blank required field is skipped: the check succeeds with
      a non-empty list of missing fields. */
  lemma BlankRequiredIsSkipped(row: Row, required: seq<string>, i: int)
    requires forall f :: f in required ==> f in row
    requires 0 <= i < |required| && Blank(row[required[i]])
    ensures CheckRequired(row, required).Success?
    ensures required[i] in CheckRequired(row, required).value
  {
    CheckRequiredMeaning(row, required);
  }
}

=== FILE: run.dfy ===
/** The main program around the batch: the file-type gate, the final
    confirmation, and the choice between simulating and submitting. */
module Run {
  import opened Outcomes
  import opened Text
  import opened Mapper
  import opened Batch

  /** What the run ends with when nothing was fatal. */
  datatype Action = Simulated(batch: seq<Payload>) | Submitted(batch: seq<Payload>) | Cancelled

  /** The answer to "Ready to submit N tickets? [Y/n]": trailing white
      space is dropped, an empty answer means "y", and case is ignored. */
  predicate Confirmed(answer: string) {
    var ready := RStrip(answer);
    Lower(if ready == [] then "y" else ready) in ["y", "yes"]
  }

  predicate IsY(c: char) { c == 'y' || c == 'Y' }

  /** The accepted answers, spelled out: nothing but white space, or y or
      yes in any mix of cases, followed by any white space. */
  lemma ConfirmedMeaning(answer: string)
    ensures var t := RStrip(answer);
      Confirmed(answer) <==>
        || t == []
        || (|t| == 1 && IsY(t[0]))
        || (|t| == 3 && IsY(t[0]) && (t[1] == 'e' || t[1] == 'E') && (t[2] == 's' || t[2] == 'S'))
  {
    var t := RStrip(answer);
    var ready := if t == [] then "y" else t;
    var low := Lower(ready);
    if |ready| == 1 {
      LowerCharIs(ready[0], 'y');
      assert low == "y" <==> low[0] == 'y';
    } else if |ready| == 3 {
      LowerCharIs(ready[0], 'y');
      LowerCharIs(ready[1], 'e');
      LowerCharIs(ready[2], 's');
      assert low == "yes" <==> low[0] == 'y' && low[1] == 'e' && low[2] == 's';
    }
  }

  /** Trailing white space never changes the answer. */
  lemma ConfirmedIgnoresTrailingSpace(answer: string, c: char)
    requires IsSpace(c)
    ensures Confirmed(answer + [c]) == Confirmed(answer)
  {
  }

  lemma ConfirmationAccepted()
    ensures Confirmed("") && Confirmed("Y") && Confirmed("Yes \n")
  {
    assert Lower("y") == "y";
    assert RStrip("Y") == "Y" && Lower("Y") == "y";
    assert RStrip("Yes \n") == "Yes" by {
      assert "Yes \n"[..4] == "Yes ";
      assert "Yes "[..3] == "Yes";
    }
    assert Lower("Yes") == "yes";
  }

  lemma ConfirmationRejected()
    ensures !Confirmed(" y") && !Confirmed("no") && !Confirmed("yess")
  {
    NotConfirmed(" y");
    NotConfirmed("no");
    NotConfirmed("yess");
  }

  /** An answer ending in a non-space character is compared as it stands. */
  lemma NotConfirmed(answer: string)
    requires |answer| > 0 && !IsSpace(answer[|answer| - 1])
    requires !(|answer| == 1 && IsY(answer[0]))
    requires !(|answer| == 3 && IsY(answer[0]) && (answer[1] == 'e' || answer[1] == 'E')
                             && (answer[2] == 's' || answer[2] == 'S'))
    ensures !Confirmed(answer)
  {
    assert RStrip(answer) == answer;
    ConfirmedMeaning(answer);
  }

  /** The main program from the file-type check to the end: `types` is
      the configured ticket types in order, `answer` the confirmation
      input, `testRun` the simulation switch. */
  function RunTickets(ctx: Context, types: seq<TicketType>, path: string, book: Workbook,
                      answer: string, testRun: bool): (r: Result<Action, Fatal>)
    ensures !SupportedPath(path) ==> r == Failure(UnsupportedFileType)
    ensures r.Success? <==> SupportedPath(path) && CollectBatch(ctx, book, types).Success?
    ensures SupportedPath(path) && CollectBatch(ctx, book, types).Failure? ==>
      r == Failure(CollectBatch(ctx, book, types).error)
    ensures r.Success? ==> (r.value.Cancelled? <==> !Confirmed(answer))
    ensures r.Success? && !r.value.Cancelled? ==>
      && r.value.batch == CollectBatch(ctx, book, types).value
      && (r.value.Simulated? <==> testRun)
  {
    if !SupportedPath(path) then Failure(UnsupportedFileType)
    else
      match CollectBatch(ctx, book, types)
      case Failure(e) => Failure(e)
      case Success(batch) =>
        if !Confirmed(answer) then Success(Cancelled)
        else if testRun then Success(Simulated(batch))
        else Success(Submitted(batch))
  }

  /** Nothing is submitted unless the path has a spreadsheet extension,
      every sheet was read without a fatal condition, the operator
      confirmed, and the run is not a simulation. */
  lemma SubmissionNeedsEverything(ctx: Context, types: seq<TicketType>, path: string, book: Workbook,
                                  answer: string, testRun: bool, batch: seq<Payload>)
    requires RunTickets(ctx, types, path, book, answer, testRun) == Success(Submitted(batch))
    ensures SplitExt(path).1 in [".xls", ".xlsx", ".xlsm"]
    ensures Confirmed(answer) && !testRun
    ensures CollectBatch(ctx, book, types) == Success(batch)
  {
  }

  /** The file-type gate on a few paths: the extension is case-sensitive,
      and a name that is only an extension has none. */
  lemma TemplatePathAccepted()
    ensures SupportedPath("Bulk Ticket Creation Template.xlsx")
  {
    var stem := "Bulk Ticket Creation Template";
    LastIndexUnique(stem, '/', -1);
    assert stem[0] != '.';
    SplitExtOfComposed(stem, "xlsx");
    assert "Bulk Ticket Creation Template" + ['.'] + "xlsx" == "Bulk Ticket Creation Template.xlsx";
  }

  lemma DottedDirectoryPathAccepted()
    ensures SupportedPath("tickets/old.v2.xls")
  {
    assert LastIndex("tickets/old.v2", '/') == 7 by {
      LastIndexUnique("tickets/old.v2", '/', 7);
    }
    assert "tickets/old.v2"[8..][0] != '.';
    SplitExtOfComposed("tickets/old.v2", "xls");
    assert "tickets/old.v2" + ['.'] + "xls" == "tickets/old.v2.xls";
  }

  lemma OtherExtensionRejected()
    ensures !SupportedPath("tickets.csv")
  {
  }

  lemma UpperCaseExtensionRejected()
    ensures !SupportedPath("tickets.XLSX")
  {
  }

  lemma BareExtensionRejected()
    ensures !SupportedPath(".xlsx")
  {
  }
}

=== FILE: seqs.dfy ===
/** Sequence helpers: order-preserving filtering, with and without a mapping. */
module Seqs {
  import opened Outcomes

  /** The elements of `s` satisfying `p`, in their original order. */
  function Filter<T(!new)>(s: seq<T>, p: T -> bool): (r: seq<T>)
    ensures |r| <= |s|
    ensures forall x :: x in r <==> x in s && p(x)
  {
    if s == [] then []
    else (if p(s[0]) then [s[0]] else []) + Filter(s[1..], p)
  }

  /** The present results of `f` over `s`, in order. */
  function FilterMap<T, U>(s: seq<T>, f: T -> Option<U>): (r: seq<U>)
    ensures |r| <= |s|
  {
    if s == [] then []
    else (match f(s[0]) case Some(u) => [u] case None => []) + FilterMap(s[1..], f)
  }
}

=== FILE: settings.dfy ===
/** The configuration the program ships with: the ticket defaults, the
    custom-field definition ids, and the one example ticket type. */
module Settings {
  import opened Outcomes
  import opened Seqs
  import opened Rows
  import opened Lookups
  import opened Mapper
  import opened MapperProperties

  const ShippedFlags := Flags(true, true, false, false, false, true, None)

  const ShippedDefinitionIds: DefinitionIds := map[
    "First Name" := Fixed(1),
    "Last Name" := Fixed(2),
    "Phone Number" := Fixed(3),
    "Position" := Fixed(4),
    "Yes/No?" := Fixed(5),
    "Email for Client" := Fixed(6)]

  const ExampleTicketType := TicketType(
    "Example Ticket Type", 8,
    ["First Name", "Last Name", "Phone Number", "Position", "Yes/No?", "Email for Client"],
    [])

  const ShippedTicketTypes: seq<TicketType> := [ExampleTicketType]

  /** Every shipped ticket type names only columns that have a definition
      id, and every id is a fixed one. */
  lemma ShippedConfigurationWellFormed()
    ensures forall tt :: tt in ShippedTicketTypes ==> WellFormed(ShippedDefinitionIds, tt)
    ensures forall f :: f in ShippedDefinitionIds ==> ShippedDefinitionIds[f].Fixed?
  {
  }

  /** The shipped ticket defaults: the client and the technician are
      emailed, nobody is copied, the creating technician is not assigned,
      and notification emails are sent. */
  lemma ShippedFlagsAreTicketDefaults()
    ensures ShippedFlags.emailClient && ShippedFlags.emailTech && ShippedFlags.sendEmail
    ensures !ShippedFlags.emailCc && !ShippedFlags.emailBcc && !ShippedFlags.assignToCreatingTech
    ensures ShippedFlags.ccAddressesForTech == None
  {
  }

  /** The run's defaults once the ticket file's cover sheet is read: the
      shipped flags with the default client as reporter, and copying
      switched on for a non-empty cc address. */
  function RunDefaults(client: Record, location: string, cc: string): (d: Defaults)
    ensures d.client == client && d.location == location
    ensures d.flags.emailCc <==> cc != ""
    ensures d.flags.ccAddressesForTech.Some? <==> cc != ""
    ensures cc != "" ==> d.flags.ccAddressesForTech.value == cc
    ensures d.flags.emailClient == ShippedFlags.emailClient && d.flags.emailTech == ShippedFlags.emailTech
    ensures d.flags.emailBcc == ShippedFlags.emailBcc && d.flags.sendEmail == ShippedFlags.sendEmail
    ensures d.flags.assignToCreatingTech == ShippedFlags.assignToCreatingTech
  {
    var flags := if cc == "" then ShippedFlags
                 else ShippedFlags.(emailCc := true, ccAddressesForTech := Some(cc));
    Defaults(flags, client, location)
  }

  /** Every ticket of a run with the shipped defaults emails the client
      and the technician, and copies someone exactly when a cc address
      was given. */
  lemma ShippedPayloadFlags(row: Row, tt: TicketType, dir: Directory, client: Record,
                            location: string, cc: string, p: Payload)
    requires Construct(row, tt, ShippedDefinitionIds, dir, RunDefaults(client, location, cc)) == Success(p)
    ensures p.flags.emailClient && p.flags.emailTech && p.flags.sendEmail
    ensures !p.flags.emailBcc && !p.flags.assignToCreatingTech
    ensures p.flags.emailCc <==> cc != ""
  {
    ShippedFlagsAreTicketDefaults();
  }

  /** An example-type payload carries five custom fields: the client
      email column goes to the reporter instead. */
  lemma ExampleTypeHasFiveCustomFields()
    ensures |Filter(ExampleTicketType.required, f => f != EmailField)| == 5
  {
  }
}

=== FILE: text.dfy ===
/** The string operations the program applies to operator input and to the
    ticket file path: Python's `str.rstrip()`, `str.lower()` on the
    characters that matter here, `str.rfind` and `os.path.splitext`. */
module Text {

  /** Python's `str.isspace` for one character: the characters `rstrip()`
      removes when called without arguments. */
  predicate IsSpace(c: char) {
    || c == ' '
    || ('\U{0009}' <= c <= '\U{000D}')
    || ('\U{001C}' <= c <= '\U{001F}')
    || c == '\U{0085}' || c == '\U{00A0}' || c == '\U{1680}'
    || ('\U{2000}' <= c <= '\U{200A}')
    || c == '\U{2028}' || c == '\U{2029}' || c == '\U{202F}'
    || c == '\U{205F}' || c == '\U{3000}'
  }

  /** `s.rstrip()`: the longest prefix of `s` that does not end in white space. */
  function RStrip(s: string): (r: string)
    ensures r <= s
    ensures r == [] || !IsSpace(r[|r| - 1])
    ensures forall i :: |r| <= i < |s| ==> IsSpace(s[i])
  {
    if |s| > 0 && IsSpace(s[|s| - 1]) then RStrip(s[..|s| - 1]) else s
  }

  function LowerChar(c: char): char {
    if 'A' <= c <= 'Z' then (c as int + 32) as char else c
  }

  /** `s.lower()` on ASCII letters; every other character is kept. */
  function Lower(s: string): (r: string)
    ensures |r| == |s|
    ensures forall i :: 0 <= i < |s| ==> r[i] == LowerChar(s[i])
  {
    if s == [] then [] else [LowerChar(s[0])] + Lower(s[1..])
  }

  lemma LowerCharIs(c: char, d: char)
    requires 'a' <= d <= 'z'
    ensures LowerChar(c) == d <==> c == d || c as int == d as int - 32
  {
  }

  /** `s.rfind(c)`: the index of the last occurrence of `c`, or -1. */
  function LastIndex(s: string, c: char): (r: int)
    ensures -1 <= r < |s|
    ensures r >= 0 ==> s[r] == c
    ensures forall k :: r < k < |s| ==> s[k] != c
  {
    LastIndexBelow(s, c, |s|)
  }

  /** The last occurrence of `c` among the first `n` characters of `s`, or -1. */
  function LastIndexBelow(s: string, c: char, n: nat): (r: int)
    requires n <= |s|
    ensures -1 <= r < n
    ensures r >= 0 ==> s[r] == c
    ensures forall k :: r < k < n ==> s[k] != c
  {
    if n == 0 then -1
    else if s[n - 1] == c then n - 1
    else LastIndexBelow(s, c, n - 1)
  }

  predicate HasNonDot(s: string) {
    exists i :: 0 <= i < |s| && s[i] != '.'
  }

  /** `os.path.splitext(p)` with `/` as the separator: the extension starts
      at the last dot of the last path component, unless everything in that
      component before the dot is a dot (a leading-dot name has none). */
  function SplitExt(p: string): (parts: (string, string))
    ensures parts.0 + parts.1 == p
  {
    var sepIndex := LastIndex(p, '/');
    var dotIndex := LastIndex(p, '.');
    if dotIndex > sepIndex && HasNonDot(p[sepIndex + 1..dotIndex]) then
      (p[..dotIndex], p[dotIndex..])
    else
      (p, [])
  }

  /** A non-empty extension is a dot followed by no dot and no slash, and
      the last path component of the root holds a character other than a dot. */
  lemma SplitExtShape(p: string)
    ensures var (root, ext) := SplitExt(p);
      ext != [] ==>
        && ext[0] == '.'
        && (forall k :: 1 <= k < |ext| ==> ext[k] != '.' && ext[k] != '/')
        && HasNonDot(root[LastIndex(root, '/') + 1..])
  {
  }

  /** The contract of `LastIndex` pins its value down. */
  lemma LastIndexUnique(s: string, c: char, r: int)
    requires -1 <= r < |s|
    requires r >= 0 ==> s[r] == c
    requires forall k :: r < k < |s| ==> s[k] != c
    ensures LastIndex(s, c) == r
  {
  }

  /** A path assembled from a directory-and-stem whose last component has
      a character other than a dot, a dot, and a suffix without dots or
      slashes splits at that dot. */
  lemma SplitExtOfComposed(d: string, e: string)
    requires forall k :: 0 <= k < |e| ==> e[k] != '.' && e[k] != '/'
    requires HasNonDot(d[LastIndex(d, '/') + 1..])
    ensures SplitExt(d + ['.'] + e) == (d, ['.'] + e)
  {
    var p := d + ['.'] + e;
    var s := LastIndex(d, '/');
    assert LastIndex(p, '.') == |d| by {
      DotIsLast(d, e);
    }
    assert LastIndex(p, '/') == s by {
      SlashIsLast(d, e);
    }
    assert HasNonDot(p[s + 1..|d|]) by {
      assert p[s + 1..|d|] == d[s + 1..];
    }
    assert p[..|d|] == d;
    assert p[|d|..] == ['.'] + e;
  }

  lemma DotIsLast(d: string, e: string)
    requires forall k :: 0 <= k < |e| ==> e[k] != '.'
    ensures LastIndex(d + ['.'] + e, '.') == |d|
  {
    var p := d + ['.'] + e;
    forall k | |d| < k < |p|
      ensures p[k] != '.'
    {
      assert p[k] == e[k - |d| - 1];
    }
    LastIndexUnique(p, '.', |d|);
  }

  lemma SlashIsLast(d: string, e: string)
    requires forall k :: 0 <= k < |e| ==> e[k] != '/'
    ensures LastIndex(d + ['.'] + e, '/') == LastIndex(d, '/')
  {
    var p := d + ['.'] + e;
    var s := LastIndex(d, '/');
    forall k | s < k < |p|
      ensures p[k] != '/'
    {
      if k < |d| {
        assert p[k] == d[k];
      } else if k > |d| {
        assert p[k] == e[k - |d| - 1];
      }
    }
    assert s >= 0 ==> p[s] == '/';
    LastIndexUnique(p, '/', s);
  }

  /** The file types the program opens. */
  const SpreadsheetExtensions: seq<string> := [".xls", ".xlsx", ".xlsm"]

  /** Whether the ticket file path passes the file-type gate. */
  predicate SupportedPath(path: string) {
    SplitExt(path).1 in SpreadsheetExtensions
  }
}
